=== FILE: README.md ===
# News ingestion pipeline — a Dafny model

This project models the news-ingestion pipeline of the portfolio's
"Sentiment-Analyzed News by Topic" dashboard, and the dashboard's keyword
filter, and proves properties of the model.

The `articles` table is modelled as an immutable map from `link` (the
primary key) to a record with `title`, `published`, `source` and the nullable
`content`, `sentiment` and `subjectivity` columns (`articles.dfy`). A run of
"Update news" has four stages, in order:

1. **Discovery** (`get_rss_feeds`, `discovery.dfy`). For every feed of the
   registry, in registry order, each entry that has a title, a link and a
   publish time becomes a stub row. The insert is insert-or-ignore, so the
   first writer wins. A malformed entry is skipped.
2. **Enrichment** (`get_links`, `add_content`, `add_sentiment`,
   `enrichment.dfy`). Every row with NULL sentiment has its article fetched.
   The text is written, then scored, and the scores are written. A failure
   leaves the row unchanged; a scoring failure leaves only the content
   written. The loop takes the selected links in an
   arbitrary order, because the query has no ORDER BY. The result is proved
   not to depend on that order.
3. **Purge** (`clear_database`, `maintenance.dfy`). Rows with NULL sentiment
   are deleted, and so are rows published before midnight 30 days before
   today.
4. **Reconciliation** (`clear_RSS_feeds`, `maintenance.dfy`). This lists the
   registry feeds that no row names as its source, and deletes them from a
   local copy of the registry. Nothing is written back.

`logged_discovery.dfy` models Discovery with its console log calls kept in,
and proves it equal to the model's Discovery when those calls return and
every entry has a title; a title-less entry ends the logged run at line 36
(the second Findings row).
`pipeline.dfy` composes the stages the way the "Update news" button and the
backend's `__main__` do. `like.dfy` and `topic_filter.dfy` model the
"Filter by Topic" search: `LOWER(column) LIKE LOWER('%keyword%')`. The model
includes a real `LIKE` matcher, and a proof that for a keyword without
wildcards the match is exact substring search. `scenarios.dfy` states what the
stages produce on small concrete inputs.

External effects are parameters of the model:
- the feed parser is a function from URL to a sequence of entries; an
  unreachable feed gives no entries, because `feedparser.parse` reports
  errors instead of raising them;
- the article download is a function from link to `Option<string>`;
- the TextBlob scorer is a function from text to `Option<Scores>`, where
  `None` means scoring raised;
- the current date is a day number.

Three behaviours of the code are kept as they are:
- Reconciliation persists nothing: the pruned registry is a local copy.
- The scorer may fail. `None` from the scorer stands for a scorer failure;
  that failure after `add_content` leaves a row with content set and
  sentiment NULL.
- Such partial rows can exist between stages; the purge removes them.

## Model

| member | source | states |
|---|---|---|
| Articles.Stub | news/news_backend.py:43-50 | an inserted row carries the entry's title, publish time and source, with content, sentiment and subjectivity NULL |
| Articles.InsertOrIgnore | news/news_backend.py:43-50 | `ON CONFLICT DO NOTHING`: the key set gains the link; every existing row, including one under the same link, stays as it was; the new row appears only under a free link |
| Articles.AddContent | news/news_backend.py:61-74 | only the content column of the row with the given link changes; the keys and every other row are unchanged; an absent link leaves the store unchanged |
| Articles.AddSentiment | news/news_backend.py:77-91 | when scoring succeeds, only sentiment and subjectivity of the given row change, to the scorer's values; when scoring raises, nothing is written |
| Discovery.StubFor | news/news_backend.py:38-42 | an entry yields a stub exactly when its title, link and publish time can all be read, and the stub is keyed by its link |
| Discovery.IngestEntries | news/news_backend.py:35-55 | the entry loop keeps every existing row and adds only stubs tagged with this feed's source |
| Discovery.Discover | news/news_backend.py:30-56 | the registry loop never changes or removes an existing row, and every row it adds is a stub |
| Discovery.InsertAllAppend | news/news_backend.py:30-50 | insert-or-ignore over two candidate lists in turn equals the same over their concatenation |
| Discovery.IngestEntriesIsInsertAll | news/news_backend.py:35-55 | the entry loop with its skip-on-error equals insert-or-ignore of the well-formed entries' stubs in order |
| Discovery.DiscoverIsInsertAll | news/news_backend.py:30-55 | Discovery equals insert-or-ignore of all candidates, feeds in registry order and entries in feed order |
| Discovery.StubsComeFromEntries | news/news_backend.py:35-55 | a feed's candidates are exactly the stubs of its well-formed entries (both directions) |
| Discovery.CandidatesComeFromFeeds | news/news_backend.py:30-35 | the registry's candidates are exactly the candidates of its feeds (both directions) |
| Discovery.InsertAllKeys | news/news_backend.py:43-50 | after insert-or-ignore a key is present exactly when it was before or some candidate carries it |
| Discovery.InsertAllKeepsExisting | news/news_backend.py:43-50 | insert-or-ignore never overwrites a row that was present |
| Discovery.InsertAllFirstWins | news/news_backend.py:43-50 | a new key holds the row of the first candidate that carries it |
| Discovery.InsertAllNoop | news/news_backend.py:43-50 | when every candidate's key is taken, insert-or-ignore leaves the store unchanged |
| Discovery.DiscoverKeys | news/news_backend.py:30-55 | a link is in the store after Discovery exactly when it was before or a registry feed offers a well-formed entry with that link |
| Discovery.DiscoverIdempotent | news/news_backend.py:43-50 | a second Discovery over the same feeds adds and changes nothing |
| Discovery.DiscoverFirstWins | news/news_backend.py:30-50 | across sources, a new link gets the row of its first well-formed entry in registry order |
| Enrichment.ProcessLink | news/news_backend.py:107-118 | one loop iteration changes only the row of its link, to the per-row outcome: unchanged on a failed fetch, content only when scoring fails, all three columns on success |
| Enrichment.Enrich | news/news_backend.py:94-119 | processing the selected links in any order gives the row-by-row result: rows with NULL sentiment get their outcome, all other rows stay unchanged |
| Enrichment.EnrichFrame | news/news_backend.py:101-106 | Enrichment keeps the key set; every row that already had a sentiment is left unchanged |
| Enrichment.EnrichFetchFailure | news/news_backend.py:107-118 | a failed download or parse leaves its row unchanged |
| Enrichment.EnrichScoringFailure | news/news_backend.py:113-114 | a failure after `add_content` leaves the row with content set and sentiment NULL |
| Enrichment.EnrichSuccess | news/news_backend.py:110-114 | a successful fetch and score leaves the row enriched with the fetched text and the scorer's two values |
| Enrichment.EnrichKeepsConsistent | news/news_backend.py:61-91 | Enrichment never sets a sentiment back to NULL (every scored row is kept unchanged); sentiment and subjectivity stay paired and follow the content |
| Enrichment.EnrichIdempotent | news/news_backend.py:101-114 | with the same fetch and scoring outcomes, a second pass changes nothing |
| Enrichment.EnrichScoresInRange | news/news_backend.py:122-129 | if the scorer keeps polarity in [-1, 1] and subjectivity in [0, 1], so does every row this pass scores |
| Maintenance.PurgeUnscored | news/news_backend.py:135-140 | the rows kept are exactly the rows with a sentiment, unchanged |
| Maintenance.PurgeExpired | news/news_backend.py:142-147 | the rows kept are exactly the rows published at or after the cutoff, unchanged |
| Maintenance.ClearDatabase | news/news_backend.py:132-149 | a row survives exactly when it has a sentiment and is not older than the cutoff, and it survives unchanged |
| Maintenance.ClearDatabaseIdempotent | news/news_backend.py:132-149 | purging twice on the same day equals purging once |
| Maintenance.PurgesCommute | news/news_backend.py:135-147 | the two deletes give the same store in either order |
| Maintenance.ClearDatabaseKeepsRecentScored | news/news_backend.py:142-147 | a scored row inside the retention window is kept unchanged, so a scored row leaves only through the retention delete |
| Maintenance.ClearDatabaseLeavesEnriched | news/news_backend.py:132-149 | after the purge, a store of consistent rows holds only enriched rows |
| Maintenance.RemoveFeed | news/news_backend.py:166-167 | deleting a name from the registry copy removes exactly the feeds with that name |
| Maintenance.UnusedNamesMembers | news/news_backend.py:162-165 | the names the `bad_sources` loop collects from the registry's names are exactly those no row uses, and there are no more of them than feeds |
| Maintenance.ClearRssFeeds | news/news_backend.py:152-168 | the bad sources are the registry names no row uses as source, collected in registry order (equal to `UnusedNames` of the feeds' names); the pruned copy is exactly the registry feeds whose name some row uses; neither is written back |
| SqlText.Lower | pages/3_Sentiment-Analyzed_News_by_Topic.py:126 | `LOWER` maps each character independently and keeps the length |
| SqlText.LowerAppend | pages/3_Sentiment-Analyzed_News_by_Topic.py:126 | `LOWER` of a concatenation is the concatenation of the `LOWER`s, so `LOWER('%k%')` is `'%' \|\| LOWER(k) \|\| '%'` |
| SqlText.LikeAnything | pages/3_Sentiment-Analyzed_News_by_Topic.py:126 | a lone `%` matches every string |
| SqlText.LikePrefix | pages/3_Sentiment-Analyzed_News_by_Topic.py:126 | for a wildcard-free `k`, `s LIKE k%` holds exactly when `k` is a prefix of `s` |
| SqlText.LikeSuffix | pages/3_Sentiment-Analyzed_News_by_Topic.py:126 | `s LIKE %q` holds exactly when `q` matches some suffix of `s` |
| SqlText.LikeIsContains | pages/3_Sentiment-Analyzed_News_by_Topic.py:126 | for a wildcard-free `k`, `s LIKE %k%` holds exactly when `s` contains `k` |
| TopicFilter.Search | pages/3_Sentiment-Analyzed_News_by_Topic.py:121-173 | an empty keyword gives the prompt and no query; otherwise every returned row is a store row with all its columns, and a row whose chosen column is NULL is never returned |
| TopicFilter.LowerNoWildcards | pages/3_Sentiment-Analyzed_News_by_Topic.py:126 | lowering a keyword cannot introduce `%` or `_` |
| TopicFilter.SearchIsSubstring | pages/3_Sentiment-Analyzed_News_by_Topic.py:119-127 | for a wildcard-free keyword, a row is returned exactly when its chosen column is set and its lowered value contains the lowered keyword |
| Pipeline.DiscoverKeepsConsistent | news/news_backend.py:43-50 | Discovery adds only consistent rows |
| Pipeline.DiscoveredRowsHaveCandidates | news/news_backend.py:30-55 | every row Discovery adds comes from a well-formed entry of a registry feed |
| Pipeline.RunKeepsRecentScored | news/news_backend.py:185-190 | a full run keeps every previously scored row that is inside the retention window unchanged |
| Pipeline.RunNewRows | news/news_backend.py:185-190 | every row a full run adds is enriched, holds the fetched text and comes from a feed entry |
| Pipeline.RunLeavesEnriched | news/news_backend.py:185-190 | from a consistent store, a full run leaves only enriched rows |
| Pipeline.UpdateNews | pages/3_Sentiment-Analyzed_News_by_Topic.py:199-211 | Discovery, Enrichment, purge and reconciliation run in turn; every remaining row has a sentiment and is inside the window; recent scored rows survive unchanged; new rows are enriched from feed entries; the registry is returned untouched; the bad sources are computed against the purged store |
| LoggedDiscovery.IngestLogged | news/news_backend.py:35-55 | the entry loop with its log calls never changes an existing row, whether it finishes or raises |
| LoggedDiscovery.DiscoverLogged | news/news_backend.py:30-56 | the registry loop with its log calls never changes an existing row, whether it finishes or raises |
| LoggedDiscovery.IngestLoggedPrints | news/news_backend.py:35-55 | with log calls that return and titled entries, the logged entry loop finishes with the store of the model's entry loop |
| LoggedDiscovery.DiscoverLoggedPrints | news/news_backend.py:30-56 | with log calls that return and titled entries, the logged Discovery finishes with exactly the model's Discovery store |
| LoggedDiscovery.DiscoverLoggedRaises | news/news_backend.py:30-34 | with the raising log call, every non-empty registry raises at the first log line, before any feed is parsed, and the store is unchanged |
| LoggedDiscovery.UntitledEntryEndsRun | news/news_backend.py:35-38 | even with a working log call, a title-less entry raises at the log line outside the try and ends the run with the store unchanged |
| LoggedDiscovery.LoggingDefectLosesEntries | news/news_backend.py:32 | on one feed with one well-formed entry, the as-written run raises with an empty store, while the run with working logging inserts the entry's row |
| Scenarios.DuplicateLinkFirstSourceWins | news/news_backend.py:43-50 | two sources with the same link leave exactly one row, with the first source's metadata |
| Scenarios.OldStubIsPurged | news/news_backend.py:132-147 | a stub published 40 days ago is purged even if Enrichment never reached it |
| Scenarios.RetentionPurgesOldScoredRow | news/news_backend.py:142-147 | a scored row published 40 days ago is purged by the retention delete, and a scored row from today is kept unchanged |
| Scenarios.BadEntrySkipped | news/news_backend.py:38-55 | an entry with no publish time is skipped and the next entry is still inserted |
| Scenarios.KeywordIgnoresCase | pages/3_Sentiment-Analyzed_News_by_Topic.py:124-127 | the keyword "elect" finds the title "Election" |

## Left out

- Network, feed parsing and article download (`feedparser`, `newspaper`), and reading the registry JSON file: these are parameters of the model.
- The TextBlob scorer is an uninterpreted parameter. Its ranges are not proved.
- Enrichment.EnrichScoresInRange: it assumes the documented score ranges of the scorer and proves only that they carry into the store.
- A per-link connect or UPDATE failure inside `add_content` or `add_sentiment` (news/news_backend.py:62, 66-73, 78, 83-90) is not represented: the scorer depends on the text alone, so it cannot fail for one link and not for another with the same text.
- DuckDB itself: connections, `commit` and table creation are left out. Store errors inside the per-entry and per-link try blocks (news/news_backend.py:38-55, 109-118) are swallowed like any other error there; the model does not represent them separately. A failing connect or statement outside those blocks (lines 13, 17-29, 95-106, 133-149, 153-158) aborts the run; the model does not represent that either.
- The timestamp conversion `datetime.fromtimestamp(mktime(...))` is folded into the entry's `published` field. `None` there stands for a missing or unconvertible time.
- Time zones are not modelled. The stored naive TIMESTAMP equals the feed's UTC fields on a host without daylight saving time. On a host with it, `mktime` reads feedparser's `tm_isdst=0` fields as standard time, so during summer time the stored value is shifted by the DST offset; that shift is not modelled. `CURRENT_DATE` is taken as a day number on the same clock.
- Discovery.StubFor: a missing title is treated as a skipped entry, as the try block intends. In the source, the log line before the try (news/news_backend.py:36) already reads `entry.title`. That read is outside the try, so a missing title would raise AttributeError out of the loop instead; LoggedDiscovery.DiscoverLogged models that behaviour, and Findings records it.
- Discovery.IngestEntries: skips a title-less entry and goes on with the next one; the source, reading `entry.title` at line 36 outside the try, would leave the loop there.
- Discovery.IngestEntriesIsInsertAll: the same divergence; a title-less entry contributes no candidate instead of ending the loop.
- Discovery.DiscoverKeys: the same divergence; entries after a title-less one still count as offered.
- Logging (`os.write` at news/news_backend.py:32, 36, 52, 116, 181) and `progressbar` are no-ops in the stages the pipeline composes. These calls are malformed and raise TypeError; `logged_discovery.dfy` models Discovery with its log calls kept (lines 32, 36, 52), and Findings records the defect.
- LoggedDiscovery.DiscoverLogged: it models the as-written logging of Discovery only. Enrichment as written would also stop at its first logged error or first progress update, after at most one link.
- TopicFilter.Search: requires a keyword without `'`. The f-string query would otherwise break or inject SQL, and that is not modelled.
- SqlText.LowerChar maps only ASCII letters. Non-ASCII case mapping is not modelled.
- The float aggregations (averages by source and by day, `round(2)`) and all Streamlit and plotting calls are left out.
- The other pages are left out: the homepage, the contact page, the African crises pages and the employee attrition page are presentation only.

## Findings

| source | as written | input that shows it | evidently intended | confidence | as-written member | corrected member |
|---|---|---|---|---|---|---|
| news/news_backend.py:32 | `os.write` gets one string argument, but it needs a file descriptor and bytes. It raises TypeError before any entry is read, and the exception escapes `get_rss_feeds`. Lines 36, 52 and 116 have the same call shape; line 181 passes `end=`, which `os.write` rejects too. | a registry with one feed "A" offering one well-formed entry for `http://a/1` | write the progress line to the console, as the commented-out `print` on line 33 does | high; not executed | LoggedDiscovery.DiscoverLoggedRaises | LoggedDiscovery.DiscoverLoggedPrints |
| news/news_backend.py:36 | The log line formats `entry.title` before the try block at line 38, so an entry without a title raises AttributeError outside the handler and ends the whole run. | a registry whose first feed's first entry has no title | skip the entry like any other malformed entry, as the try block reading `entry.title` at line 39 intends | medium; not executed | LoggedDiscovery.UntitledEntryEndsRun | Discovery.StubFor |

=== FILE: articles.dfy ===
/**
  The `articles` table of the news pipeline, as an immutable keyed store.

  The table's primary key is `link`; every other column lives in a `Record`.
  `content`, `sentiment` and `subjectivity` are nullable and start out NULL.
*/
module Articles {
  import opened Wrappers

  type Link = string
  type Source = string

  /**
    The stored naive TIMESTAMP, as seconds since 1970-01-01 00:00 on its own
    wall clock. It equals feedparser's UTC fields for the entry on a host
    without daylight saving time; otherwise it is shifted by the DST offset,
    which is not modelled.
  */
  type Timestamp = int

  /** The polarity and subjectivity TextBlob reports for a text. */
  datatype Scores = Scores(polarity: real, subjectivity: real)

  /** One row of `articles`, without its key. */
  datatype Record = Record(
    title: string,
    published: Timestamp,
    source: Source,
    content: Option<string>,
    sentiment: Option<real>,
    subjectivity: Option<real>)
  {
    /** A row as Discovery inserts it: metadata only. */
    predicate IsStub()
    {
      content.None? && sentiment.None? && subjectivity.None?
    }

    /** A row whose enrichment finished: every optional column is set. */
    predicate IsEnriched()
    {
      content.Some? && sentiment.Some? && subjectivity.Some?
    }

    /**
      The shape every pipeline stage keeps: sentiment and subjectivity are
      written together, and only after the content was written.
    */
    predicate Consistent()
    {
      && (sentiment.Some? <==> subjectivity.Some?)
      && (sentiment.Some? ==> content.Some?)
    }
  }

  type Store = map<Link, Record>

  /** Every row of the store is `Consistent`. */
  predicate ConsistentStore(s: Store)
  {
    forall l :: l in s ==> s[l].Consistent()
  }

  /** `r` differs from `s` at most in the row keyed `link`, and has the same keys. */
  predicate OnlyRowChanges(s: Store, r: Store, link: Link)
  {
    && r.Keys == s.Keys
    && forall k :: k in s && k != link ==> r[k] == s[k]
  }

  /** The row Discovery inserts for a feed entry: the three optional columns are NULL. */
  function Stub(title: string, published: Timestamp, source: Source): (r: Record)
    ensures r.IsStub() && r.Consistent()
    ensures r.title == title && r.published == published && r.source == source
  {
    Record(title, published, source, None, None, None)
  }

  /**
    `INSERT ... ON CONFLICT DO NOTHING`: a row whose key is already taken
    is dropped and the existing row is kept.
  */
  function InsertOrIgnore(s: Store, link: Link, rec: Record): (r: Store)
    ensures r.Keys == s.Keys + {link}
    ensures forall k :: k in s ==> r[k] == s[k]
    ensures link !in s ==> r[link] == rec
  {
    if link in s then s else s[link := rec]
  }

  /** `UPDATE articles SET content = ? WHERE link = ?` */
  function AddContent(s: Store, link: Link, text: string): (r: Store)
    ensures OnlyRowChanges(s, r, link)
    ensures link in s ==> r[link] == s[link].(content := Some(text))
    ensures link !in s ==> r == s
  {
    if link in s then s[link := s[link].(content := Some(text))] else s
  }

  /**
    `add_sentiment`: scores `text` and writes both scores into the row keyed
    `link`. `None` means the scorer raised, so no UPDATE was issued.
  */
  function AddSentiment(s: Store, link: Link, text: string, score: string -> Option<Scores>): (r: Option<Store>)
    ensures r.None? <==> score(text).None?
    ensures r.Some? ==> OnlyRowChanges(s, r.value, link)
    ensures r.Some? && link in s ==>
      r.value[link] == s[link].(sentiment := Some(score(text).value.polarity),
                                subjectivity := Some(score(text).value.subjectivity))
    ensures r.Some? && link !in s ==> r.value == s
  {
    match score(text)
    case None => None
    case Some(sc) =>
      if link in s
      then Some(s[link := s[link].(sentiment := Some(sc.polarity), subjectivity := Some(sc.subjectivity))])
      else Some(s)
  }

  /** `SELECT link FROM articles WHERE sentiment IS NULL`, as a set (the query has no ORDER BY). */
  function PendingLinks(s: Store): set<Link>
  {
    set l | l in s && s[l].sentiment.None?
  }

  /** `SELECT DISTINCT source FROM articles` */
  function Sources(s: Store): set<Source>
  {
    set l | l in s :: s[l].source
  }

  /**
    `r` keeps every scored row of `s` exactly as it was: the guarantee that no
    stage but the retention purge ever takes a scored row away or un-scores it.
  */
  predicate KeepsScored(s: Store, r: Store)
  {
    forall l :: l in s && s[l].sentiment.Some? ==> l in r && r[l] == s[l]
  }
}

=== FILE: discovery.dfy ===
/**
  Discovery (`get_rss_feeds`): for every feed of the registry, in registry
  order, insert a stub row for every entry that has a title, a link and a
  publish time; a duplicate link is ignored and a bad entry is skipped.
*/
module Discovery {
  import opened Wrappers
  import opened Articles

  /**
    A parsed feed entry. A field is `None` when reading it raises: the
    attribute is missing, or the publish time cannot be converted.
  */
  datatype Entry = Entry(title: Option<string>, link: Option<Link>, published: Option<Timestamp>)

  /** One `name: url` pair of the feed registry file. */
  datatype Feed = Feed(name: Source, url: string)

  /**
    The registry as `json.load` returns it: a dict in insertion order, so its
    names are distinct (a name repeated in the file keeps one entry). No
    stage below relies on that distinctness.
  */
  type Registry = seq<Feed>

  /** `feedparser.parse`: an unreachable or malformed feed yields no entries. */
  type FeedParser = string -> seq<Entry>

  /** The key and stub row the try block builds for `e`, or `None` when one of its reads raises. */
  function StubFor(source: Source, e: Entry): (r: Option<(Link, Record)>)
    ensures r.Some? <==> e.title.Some? && e.link.Some? && e.published.Some?
    ensures r.Some? ==> r.value.0 == e.link.value && r.value.1 == Stub(e.title.value, e.published.value, source)
  {
    if e.title.Some? && e.link.Some? && e.published.Some?
    then Some((e.link.value, Stub(e.title.value, e.published.value, source)))
    else None
  }

  /** One pass of the inner loop: try to insert `e`, skip it on failure. */
  function IngestEntry(s: Store, source: Source, e: Entry): Store
  {
    match StubFor(source, e)
    case None => s
    case Some(c) => InsertOrIgnore(s, c.0, c.1)
  }

  /** The inner loop over the entries of one feed. */
  function IngestEntries(s: Store, source: Source, entries: seq<Entry>): (r: Store)
    ensures s.Keys <= r.Keys
    ensures forall l :: l in s ==> r[l] == s[l]
    ensures forall l :: l in r && l !in s ==> r[l].IsStub() && r[l].source == source
    decreases |entries|
  {
    if entries == [] then s
    else IngestEntries(IngestEntry(s, source, entries[0]), source, entries[1..])
  }

  /** `get_rss_feeds`: the outer loop over the registry. */
  function Discover(s: Store, registry: Registry, parse: FeedParser): (r: Store)
    ensures s.Keys <= r.Keys
    ensures forall l :: l in s ==> r[l] == s[l]
    ensures forall l :: l in r && l !in s ==> r[l].IsStub()
    decreases |registry|
  {
    if registry == [] then s
    else Discover(IngestEntries(s, registry[0].name, parse(registry[0].url)), registry[1..], parse)
  }

  // ---------------------------------------------------------------------
  // A flat reference view: the candidate rows, in the order they are tried.

  /** The stub rows of the well-formed entries of one feed, in entry order. */
  function Stubs(source: Source, entries: seq<Entry>): seq<(Link, Record)>
    decreases |entries|
  {
    if entries == [] then []
    else
      match StubFor(source, entries[0])
      case None => Stubs(source, entries[1..])
      case Some(c) => [c] + Stubs(source, entries[1..])
  }

  /** The stub rows of the whole registry, feed by feed in registry order. */
  function Candidates(registry: Registry, parse: FeedParser): seq<(Link, Record)>
    decreases |registry|
  {
    if registry == [] then []
    else Stubs(registry[0].name, parse(registry[0].url)) + Candidates(registry[1..], parse)
  }

  /** Insert-or-ignore every candidate, in order. */
  function InsertAll(s: Store, cs: seq<(Link, Record)>): Store
    decreases |cs|
  {
    if cs == [] then s else InsertAll(InsertOrIgnore(s, cs[0].0, cs[0].1), cs[1..])
  }

  lemma {:induction false} InsertAllAppend(s: Store, a: seq<(Link, Record)>, b: seq<(Link, Record)>)
    ensures InsertAll(s, a + b) == InsertAll(InsertAll(s, a), b)
    decreases |a|
  {
    if a != [] {
      assert (a + b)[1..] == a[1..] + b;
      InsertAllAppend(InsertOrIgnore(s, a[0].0, a[0].1), a[1..], b);
    } else {
      assert a + b == b;
    }
  }

  lemma {:induction false} IngestEntriesIsInsertAll(s: Store, source: Source, entries: seq<Entry>)
    ensures IngestEntries(s, source, entries) == InsertAll(s, Stubs(source, entries))
    decreases |entries|
  {
    if entries != [] {
      var s1 := IngestEntry(s, source, entries[0]);
      IngestEntriesIsInsertAll(s1, source, entries[1..]);
      match StubFor(source, entries[0])
      case None =>
      case Some(c) =>
        assert ([c] + Stubs(source, entries[1..]))[1..] == Stubs(source, entries[1..]);
    }
  }

  /** Discovery is the flat insert-or-ignore of the candidate list. */
  lemma {:induction false} DiscoverIsInsertAll(s: Store, registry: Registry, parse: FeedParser)
    ensures Discover(s, registry, parse) == InsertAll(s, Candidates(registry, parse))
    decreases |registry|
  {
    if registry != [] {
      var stubs := Stubs(registry[0].name, parse(registry[0].url));
      var s1 := IngestEntries(s, registry[0].name, parse(registry[0].url));
      IngestEntriesIsInsertAll(s, registry[0].name, parse(registry[0].url));
      DiscoverIsInsertAll(s1, registry[1..], parse);
      InsertAllAppend(s, stubs, Candidates(registry[1..], parse));
    }
  }

  /** A candidate list is exactly the stubs of the well-formed entries, in both directions. */
  lemma {:induction false} StubsComeFromEntries(source: Source, entries: seq<Entry>)
    ensures forall c :: c in Stubs(source, entries) <==> exists e :: e in entries && StubFor(source, e) == Some(c)
    decreases |entries|
  {
    if entries != [] {
      StubsComeFromEntries(source, entries[1..]);
      assert forall e :: e in entries <==> e == entries[0] || e in entries[1..];
    }
  }

  /** The registry's candidates are the stubs of its feeds' entries, in both directions. */
  lemma {:induction false} CandidatesComeFromFeeds(registry: Registry, parse: FeedParser)
    ensures forall c :: c in Candidates(registry, parse) <==>
      exists f :: f in registry && c in Stubs(f.name, parse(f.url))
    decreases |registry|
  {
    if registry != [] {
      CandidatesComeFromFeeds(registry[1..], parse);
      assert forall f :: f in registry <==> f == registry[0] || f in registry[1..];
    }
  }

  /** Keys after insert-or-ignore: the old keys plus every candidate's key, and nothing else. */
  lemma {:induction false} InsertAllKeys(s: Store, cs: seq<(Link, Record)>)
    ensures forall l :: l in InsertAll(s, cs) <==> l in s || exists c :: c in cs && c.0 == l
    decreases |cs|
  {
    if cs != [] {
      InsertAllKeys(InsertOrIgnore(s, cs[0].0, cs[0].1), cs[1..]);
      assert forall c :: c in cs <==> c == cs[0] || c in cs[1..];
    }
  }

  /** Rows already present are never overwritten by insert-or-ignore. */
  lemma {:induction false} InsertAllKeepsExisting(s: Store, cs: seq<(Link, Record)>)
    ensures s.Keys <= InsertAll(s, cs).Keys
    ensures forall l :: l in s ==> InsertAll(s, cs)[l] == s[l]
    decreases |cs|
  {
    if cs != [] {
      InsertAllKeepsExisting(InsertOrIgnore(s, cs[0].0, cs[0].1), cs[1..]);
    }
  }

  /** First writer wins: a new key gets the row of the first candidate carrying it. */
  lemma {:induction false} InsertAllFirstWins(s: Store, cs: seq<(Link, Record)>, i: nat)
    requires i < |cs| && cs[i].0 !in s
    requires forall j :: 0 <= j < i ==> cs[j].0 != cs[i].0
    ensures cs[i].0 in InsertAll(s, cs)
    ensures InsertAll(s, cs)[cs[i].0] == cs[i].1
    decreases |cs|
  {
    var s1 := InsertOrIgnore(s, cs[0].0, cs[0].1);
    if i == 0 {
      InsertAllKeepsExisting(s1, cs[1..]);
    } else {
      assert cs[1..][i - 1] == cs[i];
      InsertAllFirstWins(s1, cs[1..], i - 1);
    }
  }

  /** When every candidate's key is taken, insert-or-ignore changes nothing. */
  lemma {:induction false} InsertAllNoop(s: Store, cs: seq<(Link, Record)>)
    requires forall j :: 0 <= j < |cs| ==> cs[j].0 in s
    ensures InsertAll(s, cs) == s
    decreases |cs|
  {
    if cs != [] {
      assert InsertOrIgnore(s, cs[0].0, cs[0].1) == s;
      InsertAllNoop(s, cs[1..]);
    }
  }

  /**
    A link is in the store after Discovery exactly when it was there before or
    some feed of the registry offers a well-formed entry with that link.
  */
  lemma DiscoverKeys(s: Store, registry: Registry, parse: FeedParser, l: Link)
    ensures l in Discover(s, registry, parse) <==>
      l in s || exists f, e :: f in registry && e in parse(f.url) && StubFor(f.name, e).Some? && e.link == Some(l)
  {
    var cs := Candidates(registry, parse);
    DiscoverIsInsertAll(s, registry, parse);
    InsertAllKeys(s, cs);
    CandidatesComeFromFeeds(registry, parse);
    forall f | f in registry
      ensures forall c :: c in Stubs(f.name, parse(f.url)) <==>
        exists e :: e in parse(f.url) && StubFor(f.name, e) == Some(c)
    {
      StubsComeFromEntries(f.name, parse(f.url));
    }
    if exists f, e :: f in registry && e in parse(f.url) && StubFor(f.name, e).Some? && e.link == Some(l) {
      var f, e :| f in registry && e in parse(f.url) && StubFor(f.name, e).Some? && e.link == Some(l);
      var c := StubFor(f.name, e).value;
      assert c in Stubs(f.name, parse(f.url));
      assert c in cs;
    }
  }

  /**
    Running Discovery a second time over the same feeds adds no row and
    changes no row.
  */
  lemma DiscoverIdempotent(s: Store, registry: Registry, parse: FeedParser)
    ensures Discover(Discover(s, registry, parse), registry, parse) == Discover(s, registry, parse)
  {
    var cs := Candidates(registry, parse);
    var r := Discover(s, registry, parse);
    DiscoverIsInsertAll(s, registry, parse);
    DiscoverIsInsertAll(r, registry, parse);
    InsertAllKeys(s, cs);
    assert forall j :: 0 <= j < |cs| ==> cs[j] in cs;
    InsertAllNoop(r, cs);
  }

  /**
    First writer wins across the registry: a new link ends up with the row of
    the first well-formed entry carrying it, feeds taken in registry order.
  */
  lemma DiscoverFirstWins(s: Store, registry: Registry, parse: FeedParser, i: nat)
    requires i < |Candidates(registry, parse)|
    requires Candidates(registry, parse)[i].0 !in s
    requires forall j :: 0 <= j < i ==> Candidates(registry, parse)[j].0 != Candidates(registry, parse)[i].0
    ensures Candidates(registry, parse)[i].0 in Discover(s, registry, parse)
    ensures Discover(s, registry, parse)[Candidates(registry, parse)[i].0] == Candidates(registry, parse)[i].1
  {
    DiscoverIsInsertAll(s, registry, parse);
    InsertAllFirstWins(s, Candidates(registry, parse), i);
  }
}

=== FILE: enrichment.dfy ===
/**
  Enrichment (`get_links`, `add_content`, `add_sentiment`): every row whose
  sentiment is NULL gets its article fetched; on success the text is written,
  then scored and the scores written. A failed fetch leaves the row
  unchanged; a scoring failure leaves only the content written.
*/
module Enrichment {
  import opened Wrappers
  import opened Articles

  /** `newspaper.Article(link).download(); .parse()`: the article text, or `None` when either raised. */
  type Fetcher = Link -> Option<string>

  /** `get_sentiment_from_text` (TextBlob): the scores, or `None` when scoring raised. */
  type Scorer = string -> Option<Scores>

  /**
    What one pass of the try block leaves in a row, as a per-row reference:
    nothing on a failed fetch, the content alone when scoring fails, all three
    columns when both steps succeed. Title, link, publish time and source are
    never touched.
  */
  function EnrichRecord(rec: Record, fetched: Option<string>, score: Scorer): Record
  {
    match fetched
    case None => rec
    case Some(text) =>
      match score(text)
      case None => rec.(content := Some(text))
      case Some(sc) => rec.(content := Some(text), sentiment := Some(sc.polarity), subjectivity := Some(sc.subjectivity))
  }

  /**
    One iteration of the loop over the selected links: `add_content` then
    `add_sentiment`, each its own committed write, inside one try block.
  */
  function ProcessLink(s: Store, link: Link, fetch: Fetcher, score: Scorer): (r: Store)
    ensures OnlyRowChanges(s, r, link)
    ensures link in s ==> r[link] == EnrichRecord(s[link], fetch(link), score)
  {
    match fetch(link)
    case None => s
    case Some(text) =>
      var withContent := AddContent(s, link, text);
      match AddSentiment(withContent, link, text, score)
      case None => withContent
      case Some(scored) => scored
  }

  /** The store after one Enrichment pass, row by row: selected rows enriched, the rest as they were. */
  function EnrichedStore(s: Store, fetch: Fetcher, score: Scorer): Store
  {
    map l | l in s :: if s[l].sentiment.None? then EnrichRecord(s[l], fetch(l), score) else s[l]
  }

  /**
    `get_links`: select the links with NULL sentiment, then process them one
    by one. The query has no ORDER BY, so the loop takes them in an arbitrary
    order; the result shows that the order does not matter.
  */
  method Enrich(s: Store, fetch: Fetcher, score: Scorer) returns (r: Store)
    ensures r == EnrichedStore(s, fetch, score)
  {
    var selected := PendingLinks(s);
    var todo := selected;
    r := s;
    while todo != {}
      invariant todo <= selected
      invariant r.Keys == s.Keys
      invariant forall l :: l in s ==>
        r[l] == (if l in selected && l !in todo then EnrichRecord(s[l], fetch(l), score) else s[l])
      decreases todo
    {
      var l :| l in todo;
      r := ProcessLink(r, l, fetch, score);
      todo := todo - {l};
    }
    assert forall l :: l in s ==> (l in selected <==> s[l].sentiment.None?);
  }

  /**
    Enrichment touches only the selected rows: the keys stay the same and
    every row that already had a sentiment is neither read nor changed.
  */
  lemma EnrichFrame(s: Store, fetch: Fetcher, score: Scorer)
    ensures EnrichedStore(s, fetch, score).Keys == s.Keys
    ensures KeepsScored(s, EnrichedStore(s, fetch, score))
  {
  }

  /** A failed fetch or parse leaves its row exactly as it was. */
  lemma EnrichFetchFailure(s: Store, fetch: Fetcher, score: Scorer, l: Link)
    requires l in s && fetch(l).None?
    ensures EnrichedStore(s, fetch, score)[l] == s[l]
  {
  }

  /**
    A scoring failure after `add_content` leaves the row with its content set
    and its sentiment still NULL.
  */
  lemma EnrichScoringFailure(s: Store, fetch: Fetcher, score: Scorer, l: Link)
    requires l in s && s[l].sentiment.None?
    requires fetch(l).Some? && score(fetch(l).value).None?
    ensures EnrichedStore(s, fetch, score)[l] == s[l].(content := fetch(l))
    ensures EnrichedStore(s, fetch, score)[l].sentiment.None?
  {
  }

  /** A selected row whose fetch and scoring both succeed ends fully enriched with those values. */
  lemma EnrichSuccess(s: Store, fetch: Fetcher, score: Scorer, l: Link)
    requires l in s && s[l].sentiment.None?
    requires fetch(l).Some? && score(fetch(l).value).Some?
    ensures EnrichedStore(s, fetch, score)[l].IsEnriched()
    ensures EnrichedStore(s, fetch, score)[l].content == fetch(l)
    ensures EnrichedStore(s, fetch, score)[l].sentiment == Some(score(fetch(l).value).value.polarity)
    ensures EnrichedStore(s, fetch, score)[l].subjectivity == Some(score(fetch(l).value).value.subjectivity)
  {
  }

  /** Enrichment never sets a sentiment back to NULL and keeps every row `Consistent`. */
  lemma EnrichKeepsConsistent(s: Store, fetch: Fetcher, score: Scorer)
    requires ConsistentStore(s)
    ensures KeepsScored(s, EnrichedStore(s, fetch, score))
    ensures ConsistentStore(EnrichedStore(s, fetch, score))
  {
  }

  /**
    With the same fetch and scoring outcomes, a second pass changes nothing:
    rows scored by the first pass are no longer selected, and the rows still
    selected are rewritten with the very same values.
  */
  lemma EnrichIdempotent(s: Store, fetch: Fetcher, score: Scorer)
    ensures EnrichedStore(EnrichedStore(s, fetch, score), fetch, score) == EnrichedStore(s, fetch, score)
  {
  }

  /** The documented score ranges: polarity in [-1, 1], subjectivity in [0, 1]. */
  predicate InRange(sc: Scores)
  {
    -1.0 <= sc.polarity <= 1.0 && 0.0 <= sc.subjectivity <= 1.0
  }

  /**
    Assuming the scorer keeps to its documented ranges, every row this pass
    scores carries in-range values.
  */
  lemma EnrichScoresInRange(s: Store, fetch: Fetcher, score: Scorer, l: Link)
    requires forall t :: score(t).Some? ==> InRange(score(t).value)
    requires l in s && s[l].sentiment.None?
    requires EnrichedStore(s, fetch, score)[l].sentiment.Some?
    ensures -1.0 <= EnrichedStore(s, fetch, score)[l].sentiment.value <= 1.0
    ensures EnrichedStore(s, fetch, score)[l].subjectivity.Some?
    ensures 0.0 <= EnrichedStore(s, fetch, score)[l].subjectivity.value <= 1.0
  {
  }
}

=== FILE: like.dfy ===
/**
  The two SQL string functions the keyword filter uses: `LOWER` and `LIKE`.
*/
module SqlText {

  /** `LOWER` on one character; only ASCII letters are mapped. */
  function LowerChar(c: char): char
  {
    if 'A' <= c <= 'Z' then (c as int - 'A' as int + 'a' as int) as char else c
  }

  /** `LOWER` on a string: character by character. */
  function Lower(s: string): (r: string)
    ensures |r| == |s|
    ensures forall i :: 0 <= i < |s| ==> r[i] == LowerChar(s[i])
    decreases |s|
  {
    if s == [] then [] else [LowerChar(s[0])] + Lower(s[1..])
  }

  /** `LOWER` distributes over concatenation. */
  lemma LowerAppend(a: string, b: string)
    ensures Lower(a + b) == Lower(a) + Lower(b)
  {
  }

  /**
    `s LIKE p`: `%` matches any run of characters, `_` any one character, and
    every other character itself. There is no escape character.
  */
  function Like(s: string, p: string): bool
    decreases |p|, |s|
  {
    if p == [] then s == []
    else if p[0] == '%' then Like(s, p[1..]) || (s != [] && Like(s[1..], p))
    else s != [] && (p[0] == '_' || p[0] == s[0]) && Like(s[1..], p[1..])
  }

  /** `k` holds neither of the LIKE wildcards. */
  predicate NoWildcards(k: string)
  {
    forall i :: 0 <= i < |k| ==> k[i] != '%' && k[i] != '_'
  }

  predicate IsPrefix(k: string, s: string)
  {
    |k| <= |s| && s[..|k|] == k
  }

  /** `k` occurs in `s` as a contiguous substring. */
  predicate Contains(s: string, k: string)
  {
    exists i :: 0 <= i <= |s| && IsPrefix(k, s[i..])
  }

  /** A lone `%` matches every string. */
  lemma {:induction false} LikeAnything(s: string)
    ensures Like(s, "%")
    decreases |s|
  {
    if s != [] {
      LikeAnything(s[1..]);
    }
  }

  /** `s LIKE k || '%'` holds exactly when `k` is a prefix of `s`, for a wildcard-free `k`. */
  lemma {:induction false} LikePrefix(s: string, k: string)
    requires NoWildcards(k)
    ensures Like(s, k + "%") <==> IsPrefix(k, s)
    decreases |k|
  {
    if k == [] {
      assert k + "%" == "%";
      LikeAnything(s);
    } else {
      var p := k + "%";
      assert p[0] == k[0] && p[1..] == k[1..] + "%";
      if s != [] {
        LikePrefix(s[1..], k[1..]);
        assert IsPrefix(k, s) <==> s[0] == k[0] && IsPrefix(k[1..], s[1..]) by {
          if IsPrefix(k, s) {
            assert s[1..][..|k| - 1] == s[..|k|][1..];
          }
          if s[0] == k[0] && IsPrefix(k[1..], s[1..]) {
            assert s[..|k|] == [s[0]] + s[1..][..|k| - 1];
          }
        }
      }
    }
  }

  /** `s LIKE '%' || q` holds exactly when `q` matches some suffix of `s`. */
  lemma {:induction false} LikeSuffix(s: string, q: string)
    ensures Like(s, "%" + q) <==> exists i :: 0 <= i <= |s| && Like(s[i..], q)
    decreases |s|
  {
    var p := "%" + q;
    assert p[0] == '%' && p[1..] == q;
    assert s[0..] == s;
    if s != [] {
      LikeSuffix(s[1..], q);
      assert forall i :: 1 <= i <= |s| ==> s[1..][i - 1..] == s[i..];
      if exists i :: 0 <= i <= |s| && Like(s[i..], q) {
        var i :| 0 <= i <= |s| && Like(s[i..], q);
        if i > 0 {
          assert Like(s[1..][i - 1..], q);
        }
      }
    }
  }

  /**
    The filter's pattern `'%' || k || '%'` matches exactly the strings that
    contain `k`, when `k` has no wildcard.
  */
  lemma LikeIsContains(s: string, k: string)
    requires NoWildcards(k)
    ensures Like(s, "%" + k + "%") <==> Contains(s, k)
  {
    assert "%" + k + "%" == "%" + (k + "%");
    LikeSuffix(s, k + "%");
    forall i | 0 <= i <= |s|
      ensures Like(s[i..], k + "%") <==> IsPrefix(k, s[i..])
    {
      LikePrefix(s[i..], k);
    }
  }
}

=== FILE: logged_discovery.dfy ===
/**
  `get_rss_feeds` with its console logging kept in: the log call before the
  feed is parsed, the one before each entry (which formats the entry's title
  outside the try block), and the one in the error handler. Whether a log
  call returns or raises is the parameter `logOk`: `true` for a working
  console print, `false` for the one-argument `os.write` the source calls,
  which raises TypeError.
*/
module LoggedDiscovery {
  import opened Wrappers
  import opened Articles
  import opened Discovery

  /**
    How a run of the loop ends. DuckDB commits each INSERT on its own in its
    default auto-commit mode, so the rows inserted before an escaping
    exception stay in the store.
  */
  datatype RunEnd = Finished(store: Store) | Raised(store: Store)

  /**
    The entry loop with its logging. The log line before the try formats
    `entry.title`, so a title-less entry raises there, outside the handler;
    then the log call itself may raise. A failure inside the try reaches the
    handler, whose own log call may raise too.
  */
  function IngestLogged(s: Store, source: Source, entries: seq<Entry>, logOk: bool): (r: RunEnd)
    ensures s.Keys <= r.store.Keys
    ensures forall l :: l in s ==> r.store[l] == s[l]
    decreases |entries|
  {
    if entries == [] then Finished(s)
    else if entries[0].title.None? || !logOk then Raised(s)
    else
      match StubFor(source, entries[0])
      case Some(c) => IngestLogged(InsertOrIgnore(s, c.0, c.1), source, entries[1..], logOk)
      // The handler's log call (line 52) cannot be the one that raises: with
      // `logOk` false, the log call of line 36 has already raised above.
      case None => IngestLogged(s, source, entries[1..], logOk)
  }

  /** The registry loop with its logging: the log call comes before the feed is parsed. */
  function DiscoverLogged(s: Store, registry: Registry, parse: FeedParser, logOk: bool): (r: RunEnd)
    ensures s.Keys <= r.store.Keys
    ensures forall l :: l in s ==> r.store[l] == s[l]
    decreases |registry|
  {
    if registry == [] then Finished(s)
    else if !logOk then Raised(s)
    else
      match IngestLogged(s, registry[0].name, parse(registry[0].url), logOk)
      case Raised(s1) => Raised(s1)
      case Finished(s1) => DiscoverLogged(s1, registry[1..], parse, logOk)
  }

  /** Every entry of every registry feed has a title. */
  predicate AllTitled(registry: Registry, parse: FeedParser)
  {
    forall f, e :: f in registry && e in parse(f.url) ==> e.title.Some?
  }

  lemma {:induction false} IngestLoggedPrints(s: Store, source: Source, entries: seq<Entry>)
    requires forall e :: e in entries ==> e.title.Some?
    ensures IngestLogged(s, source, entries, true) == Finished(IngestEntries(s, source, entries))
    decreases |entries|
  {
    if entries != [] {
      assert entries[0] in entries;
      IngestLoggedPrints(IngestEntry(s, source, entries[0]), source, entries[1..]);
    }
  }

  /**
    With log calls that return, and entries that all have titles, the logged
    loop finishes with exactly the store the model's Discovery computes.
  */
  lemma {:induction false} DiscoverLoggedPrints(s: Store, registry: Registry, parse: FeedParser)
    requires AllTitled(registry, parse)
    ensures DiscoverLogged(s, registry, parse, true) == Finished(Discover(s, registry, parse))
    decreases |registry|
  {
    if registry != [] {
      assert registry[0] in registry;
      IngestLoggedPrints(s, registry[0].name, parse(registry[0].url));
      DiscoverLoggedPrints(IngestEntries(s, registry[0].name, parse(registry[0].url)), registry[1..], parse);
    }
  }

  /**
    As written, the first log call raises: every non-empty registry ends the
    run with an exception before any feed is parsed, and nothing is inserted.
  */
  lemma DiscoverLoggedRaises(s: Store, registry: Registry, parse: FeedParser)
    requires registry != []
    ensures DiscoverLogged(s, registry, parse, false) == Raised(s)
  {
  }

  /**
    Even with a working log call, an entry without a title raises at the log
    line outside the try block: the rest of the feed and all later feeds are
    not read.
  */
  lemma UntitledEntryEndsRun(s: Store, registry: Registry, parse: FeedParser)
    requires registry != [] && parse(registry[0].url) != [] && parse(registry[0].url)[0].title.None?
    ensures DiscoverLogged(s, registry, parse, true) == Raised(s)
  {
  }

  /**
    The discrepancy on one feed with one well-formed entry: as written the run
    raises and the store stays empty; with log calls that return, the run
    finishes with the entry's row inserted.
  */
  lemma LoggingDefectLosesEntries()
    ensures DiscoverLogged(map[], [Feed("A", "a.rss")], _ => [Entry(Some("A1"), Some("http://a/1"), Some(0))], false)
         == Raised(map[])
    ensures DiscoverLogged(map[], [Feed("A", "a.rss")], _ => [Entry(Some("A1"), Some("http://a/1"), Some(0))], true)
         == Finished(map["http://a/1" := Stub("A1", 0, "A")])
  {
  }
}

=== FILE: maintenance.dfy ===
/**
  Maintenance (`clear_database`, `clear_RSS_feeds`): purge unscored and
  expired rows, then work out which registry feeds have no row in the store.
*/
module Maintenance {
  import opened Articles
  import opened Discovery

  /** The retention window of the purge, in days. */
  const RetentionDays: int := 30
  const SecondsPerDay: int := 86400

  /**
    `CURRENT_DATE - 30` compared with a TIMESTAMP: the date is widened to its
    midnight. `today` is the current date as a day number since the epoch.
  */
  function Cutoff(today: int): Timestamp
  {
    (today - RetentionDays) * SecondsPerDay
  }

  /** `DELETE FROM articles WHERE sentiment IS NULL` */
  function PurgeUnscored(s: Store): (r: Store)
    ensures r.Keys <= s.Keys
    ensures forall l :: l in r ==> r[l] == s[l] && r[l].sentiment.Some?
    ensures forall l :: l in s && s[l].sentiment.Some? ==> l in r
  {
    map l | l in s && s[l].sentiment.Some? :: s[l]
  }

  /** `DELETE FROM articles WHERE published < (CURRENT_DATE - 30)` */
  function PurgeExpired(s: Store, cutoff: Timestamp): (r: Store)
    ensures r.Keys <= s.Keys
    ensures forall l :: l in r ==> r[l] == s[l] && r[l].published >= cutoff
    ensures forall l :: l in s && s[l].published >= cutoff ==> l in r
  {
    map l | l in s && s[l].published >= cutoff :: s[l]
  }

  /** `clear_database`: the two deletes, in source order. */
  function ClearDatabase(s: Store, today: int): (r: Store)
    ensures forall l :: l in r ==> r[l].sentiment.Some? && r[l].published >= Cutoff(today)
    ensures forall l :: l in r <==> l in s && s[l].sentiment.Some? && s[l].published >= Cutoff(today)
    ensures forall l :: l in r ==> r[l] == s[l]
  {
    PurgeExpired(PurgeUnscored(s), Cutoff(today))
  }

  /** Purging twice on the same day is purging once. */
  lemma ClearDatabaseIdempotent(s: Store, today: int)
    ensures ClearDatabase(ClearDatabase(s, today), today) == ClearDatabase(s, today)
  {
  }

  /** The order of the two deletes does not matter. */
  lemma PurgesCommute(s: Store, cutoff: Timestamp)
    ensures PurgeExpired(PurgeUnscored(s), cutoff) == PurgeUnscored(PurgeExpired(s, cutoff))
  {
  }

  /**
    A scored row leaves the store only through the retention delete: if it
    is recent enough it is kept unchanged.
  */
  lemma ClearDatabaseKeepsRecentScored(s: Store, today: int)
    ensures forall l :: l in s && s[l].sentiment.Some? && s[l].published >= Cutoff(today) ==>
      l in ClearDatabase(s, today) && ClearDatabase(s, today)[l] == s[l]
  {
  }

  /** After the purge, a store whose rows are `Consistent` holds enriched rows only. */
  lemma ClearDatabaseLeavesEnriched(s: Store, today: int)
    requires ConsistentStore(s)
    ensures forall l :: l in ClearDatabase(s, today) ==> ClearDatabase(s, today)[l].IsEnriched()
  {
  }

  // ---------------------------------------------------------------------
  // clear_RSS_feeds

  /** The names of a registry's feeds. */
  function Names(registry: Registry): set<Source>
  {
    set f | f in registry :: f.name
  }

  /** `del RSS_Feeds[name]` on the local copy of the registry. */
  function RemoveFeed(registry: Registry, name: Source): (r: Registry)
    ensures forall f :: f in r <==> f in registry && f.name != name
    ensures |r| <= |registry|
    decreases |registry|
  {
    if registry == [] then []
    else if registry[0].name == name then RemoveFeed(registry[1..], name)
    else [registry[0]] + RemoveFeed(registry[1..], name)
  }

  /** The feeds' names, in registry order. */
  function NameList(registry: Registry): (r: seq<Source>)
    ensures |r| == |registry|
    ensures forall i :: 0 <= i < |registry| ==> r[i] == registry[i].name
  {
    seq(|registry|, i requires 0 <= i < |registry| => registry[i].name)
  }

  /** The names of `names` that are not in `present`, in the order given. */
  function UnusedNames(names: seq<Source>, present: set<Source>): seq<Source>
  {
    if names == [] then []
    else (if names[0] in present then [] else [names[0]]) + UnusedNames(names[1..], present)
  }

  /** The unused names are exactly the given names outside `present`, and there are no more of them than names given. */
  lemma {:induction false} UnusedNamesMembers(names: seq<Source>, present: set<Source>)
    ensures forall x :: x in UnusedNames(names, present) <==> x in names && x !in present
    ensures |UnusedNames(names, present)| <= |names|
    decreases |names|
  {
    if names != [] {
      UnusedNamesMembers(names[1..], present);
      assert names == [names[0]] + names[1..];
    }
  }

  /**
    `clear_RSS_feeds`: `bad` lists, in registry order, the feeds no row of
    the store names as its source, and `pruned` is the local registry copy
    with those feeds deleted. Neither is written back: the store and the
    registry file are left as they were.
  */
  method ClearRssFeeds(s: Store, registry: Registry) returns (bad: seq<Source>, pruned: Registry)
    ensures forall x :: x in bad <==> x in Names(registry) && x !in Sources(s)
    ensures bad == UnusedNames(NameList(registry), Sources(s))
    ensures |bad| <= |registry|
    ensures forall f :: f in pruned <==> f in registry && f.name in Sources(s)
  {
    var present := Sources(s);
    var names := NameList(registry);
    bad := [];
    var i := 0;
    while i < |registry|
      invariant 0 <= i <= |registry|
      invariant bad + UnusedNames(names[i..], present) == UnusedNames(names, present)
    {
      assert names[i..][1..] == names[i + 1..];
      if registry[i].name !in present {
        bad := bad + [registry[i].name];
      }
      i := i + 1;
    }
    UnusedNamesMembers(names, present);
    assert forall x :: x in names <==> x in Names(registry);
    pruned := registry;
    var k := 0;
    while k < |bad|
      invariant 0 <= k <= |bad|
      invariant forall f :: f in pruned <==> f in registry && f.name !in bad[..k]
    {
      assert bad[..k + 1] == bad[..k] + [bad[k]];
      pruned := RemoveFeed(pruned, bad[k]);
      k := k + 1;
    }
    assert bad[..k] == bad;
  }
}

=== FILE: pipeline.dfy ===
/**
  The "Update news" button (and the backend's `__main__`): Discovery, then
  Enrichment, then the purge, then registry reconciliation, strictly in turn.
*/
module Pipeline {
  import opened Wrappers
  import opened Articles
  import opened Discovery
  import opened Enrichment
  import opened Maintenance

  /** Discovery only ever adds `Consistent` stub rows. */
  lemma DiscoverKeepsConsistent(s: Store, registry: Registry, parse: FeedParser)
    requires ConsistentStore(s)
    ensures ConsistentStore(Discover(s, registry, parse))
  {
  }

  /** A row Discovery adds comes from one of the registry's well-formed entries. */
  lemma DiscoveredRowsHaveCandidates(s: Store, registry: Registry, parse: FeedParser)
    ensures forall l :: l in Discover(s, registry, parse) && l !in s ==>
      exists c :: c in Candidates(registry, parse) && c.0 == l
  {
    DiscoverIsInsertAll(s, registry, parse);
    InsertAllKeys(s, Candidates(registry, parse));
  }

  /** The store a run leaves behind: the three store-changing stages composed. */
  function RunStages(s: Store, registry: Registry, parse: FeedParser, fetch: Fetcher, score: Scorer, today: int): Store
  {
    ClearDatabase(EnrichedStore(Discover(s, registry, parse), fetch, score), today)
  }

  /** Scored rows of the old store survive a run unchanged unless they are past the retention window. */
  lemma RunKeepsRecentScored(s: Store, registry: Registry, parse: FeedParser, fetch: Fetcher, score: Scorer, today: int)
    ensures forall l :: l in s && s[l].sentiment.Some? && s[l].published >= Cutoff(today) ==>
      l in RunStages(s, registry, parse, fetch, score, today) && RunStages(s, registry, parse, fetch, score, today)[l] == s[l]
  {
  }

  /**
    A row that a run adds was offered by a feed, was fetched and scored in
    the same run, and carries the fetched text.
  */
  lemma RunNewRows(s: Store, registry: Registry, parse: FeedParser, fetch: Fetcher, score: Scorer, today: int)
    ensures forall l :: l in RunStages(s, registry, parse, fetch, score, today) && l !in s ==>
      && RunStages(s, registry, parse, fetch, score, today)[l].IsEnriched()
      && RunStages(s, registry, parse, fetch, score, today)[l].content == fetch(l)
      && exists c :: c in Candidates(registry, parse) && c.0 == l
  {
    var d := Discover(s, registry, parse);
    var e := EnrichedStore(d, fetch, score);
    var r := ClearDatabase(e, today);
    DiscoveredRowsHaveCandidates(s, registry, parse);
    forall l | l in r && l !in s
      ensures r[l].IsEnriched() && r[l].content == fetch(l)
    {
      assert d[l].IsStub();
      assert e[l] == EnrichRecord(d[l], fetch(l), score);
    }
  }

  /** From a `Consistent` store, a run leaves enriched rows only. */
  lemma RunLeavesEnriched(s: Store, registry: Registry, parse: FeedParser, fetch: Fetcher, score: Scorer, today: int)
    requires ConsistentStore(s)
    ensures forall l :: l in RunStages(s, registry, parse, fetch, score, today) ==>
      RunStages(s, registry, parse, fetch, score, today)[l].IsEnriched()
  {
  }

  /**
    One run of "Update news". `today` is the current date as a day number;
    the registry is returned exactly as it came in, because reconciliation
    only prunes a local copy.
  */
  method UpdateNews(s: Store, registry: Registry, parse: FeedParser, fetch: Fetcher, score: Scorer, today: int)
    returns (r: Store, registryAfter: Registry, bad: seq<Source>)
    ensures r == RunStages(s, registry, parse, fetch, score, today)
    ensures registryAfter == registry
    ensures forall l :: l in r ==> r[l].sentiment.Some? && r[l].published >= Cutoff(today)
    ensures forall l :: l in s && s[l].sentiment.Some? && s[l].published >= Cutoff(today) ==> l in r && r[l] == s[l]
    ensures forall l :: l in r && l !in s ==>
      r[l].IsEnriched() && r[l].content == fetch(l) && exists c :: c in Candidates(registry, parse) && c.0 == l
    ensures ConsistentStore(s) ==> forall l :: l in r ==> r[l].IsEnriched()
    ensures forall x :: x in bad <==> x in Names(registry) && x !in Sources(r)
  {
    var discovered := Discover(s, registry, parse);
    var enriched := Enrich(discovered, fetch, score);
    r := ClearDatabase(enriched, today);
    var pruned;
    bad, pruned := ClearRssFeeds(r, registry);
    registryAfter := registry;

    RunKeepsRecentScored(s, registry, parse, fetch, score, today);
    RunNewRows(s, registry, parse, fetch, score, today);
    if ConsistentStore(s) {
      RunLeavesEnriched(s, registry, parse, fetch, score, today);
    }
  }
}

=== FILE: scenarios.dfy ===
/** What the pipeline's stages produce on small concrete inputs. */
module Scenarios {
  import opened Wrappers
  import opened Articles
  import opened Discovery
  import opened Maintenance
  import opened SqlText
  import opened TopicFilter

  /** 2024-01-01T00:00:00 as seconds since the epoch. */
  const NewYear2024: Timestamp := 1704067200

  /** Two feeds carry the same link; feed A comes first in the registry. */
  function TwoFeeds(url: string): seq<Entry>
  {
    if url == "a.rss" then [Entry(Some("A1"), Some("http://a/1"), Some(NewYear2024))]
    else [Entry(Some("B1"), Some("http://a/1"), Some(NewYear2024 + 60))]
  }

  /** The store holds exactly one row for the shared link, and it is feed A's. */
  lemma DuplicateLinkFirstSourceWins()
    ensures Discover(map[], [Feed("A", "a.rss"), Feed("B", "b.rss")], TwoFeeds)
         == map["http://a/1" := Stub("A1", NewYear2024, "A")]
  {
    var registry := [Feed("A", "a.rss"), Feed("B", "b.rss")];
    var s1 := IngestEntries(map[], "A", TwoFeeds("a.rss"));
    assert s1 == map["http://a/1" := Stub("A1", NewYear2024, "A")];
    assert registry[1..] == [Feed("B", "b.rss")];
    var s2 := IngestEntries(s1, "B", TwoFeeds("b.rss"));
    assert s2 == s1;
  }

  /** A stub published 40 days ago is purged even though Enrichment never reached it. */
  lemma OldStubIsPurged(today: int, l: Link)
    ensures l !in ClearDatabase(map[l := Stub("Old", (today - 40) * SecondsPerDay, "A")], today)
  {
  }

  /**
    The retention delete on scored rows: a scored row published 40 days ago
    is purged, and a scored row published today is kept unchanged.
  */
  lemma RetentionPurgesOldScoredRow(today: int)
    ensures "old" !in ClearDatabase(RetentionStore(today), today)
    ensures "new" in ClearDatabase(RetentionStore(today), today)
    ensures ClearDatabase(RetentionStore(today), today)["new"] == RetentionStore(today)["new"]
  {
    assert Cutoff(today) == (today - 30) * SecondsPerDay;
    assert (today - 40) * SecondsPerDay < (today - 30) * SecondsPerDay;
    assert today * SecondsPerDay >= (today - 30) * SecondsPerDay;
  }

  /** Two scored rows, published 40 days before `today` and at its midnight. */
  function RetentionStore(today: int): Store
  {
    var scored := (r: Record) => r.(content := Some("text"), sentiment := Some(0.5), subjectivity := Some(0.5));
    map["old" := scored(Stub("Old", (today - 40) * SecondsPerDay, "A")),
        "new" := scored(Stub("New", today * SecondsPerDay, "A"))]
  }

  /** An entry without a publish time is skipped and the next entry is still inserted. */
  lemma BadEntrySkipped()
    ensures IngestEntries(map[], "A", [Entry(Some("X"), Some("http://a/x"), None),
                                      Entry(Some("Y"), Some("http://a/y"), Some(NewYear2024))])
         == map["http://a/y" := Stub("Y", NewYear2024, "A")]
  {
    var es := [Entry(Some("X"), Some("http://a/x"), None), Entry(Some("Y"), Some("http://a/y"), Some(NewYear2024))];
    assert IngestEntry(map[], "A", es[0]) == map[];
    assert es[1..] == [es[1]];
    assert IngestEntry(map[], "A", es[1]) == map["http://a/y" := Stub("Y", NewYear2024, "A")];
    assert es[1..][1..] == [];
    var m := map["http://a/y" := Stub("Y", NewYear2024, "A")];
    assert IngestEntries(m, "A", []) == m;
    assert IngestEntries(map[], "A", es[1..]) == IngestEntries(m, "A", []);
    assert IngestEntries(map[], "A", es) == IngestEntries(map[], "A", es[1..]);
  }

  /** Searching the titles for "elect" finds a row titled "Election". */
  lemma KeywordIgnoresCase()
    ensures "http://a/1" in Search(map["http://a/1" := Stub("Election", NewYear2024, "A")], "elect", Title).rows
  {
    var s := map["http://a/1" := Stub("Election", NewYear2024, "A")];
    SearchIsSubstring(s, "elect", Title, "http://a/1");
    var v := Lower("Election");
    var k := Lower("elect");
    assert |v| == 8 && |k| == 5;
    assert LowerChar('E') == 'e';
    assert v[0] == 'e' && v[1] == 'l' && v[2] == 'e' && v[3] == 'c' && v[4] == 't';
    assert k[0] == 'e' && k[1] == 'l' && k[2] == 'e' && k[3] == 'c' && k[4] == 't';
    assert v[0..][..5] == k;
  }
}

=== FILE: topic_filter.dfy ===
/**
  The "Filter by Topic" view: a keyword search over the title or the content
  column, case-insensitive, returning whole rows.
*/
module TopicFilter {
  import opened Wrappers
  import opened Articles
  import opened SqlText

  /** The two choices of the "Search in" drop-down. */
  datatype Column = Title | Content

  /** What the search button produces: a prompt for an empty keyword, or the matching rows. */
  datatype SearchOutcome = EnterKeyword | Found(rows: Store)

  /** The value of the chosen column; the title column is never NULL. */
  function ColumnValue(rec: Record, column: Column): Option<string>
  {
    match column
    case Title => Some(rec.title)
    case Content => rec.content
  }

  /** The keyword can sit inside the quoted SQL literal without closing it. */
  predicate QuoteFree(keyword: string)
  {
    forall i :: 0 <= i < |keyword| ==> keyword[i] != '\''
  }

  /**
    `LOWER(column) LIKE LOWER('%keyword%')`: NULL in the column makes the
    comparison NULL, which does not select the row.
  */
  predicate RowMatches(rec: Record, column: Column, keyword: string)
  {
    match ColumnValue(rec, column)
    case None => false
    case Some(v) => Like(Lower(v), Lower("%" + keyword + "%"))
  }

  /**
    The search: an empty keyword issues no query; otherwise the rows whose
    chosen column matches, with all their columns. The store is only read.
  */
  function Search(s: Store, keyword: string, column: Column): (r: SearchOutcome)
    requires QuoteFree(keyword)
    ensures r.EnterKeyword? <==> keyword == []
    ensures r.Found? ==> forall l :: l in r.rows ==> l in s && r.rows[l] == s[l]
    ensures r.Found? ==> forall l :: l in s && ColumnValue(s[l], column).None? ==> l !in r.rows
  {
    if keyword == [] then EnterKeyword
    else Found(map l | l in s && RowMatches(s[l], column, keyword) :: s[l])
  }

  /** Lowering keeps a keyword free of wildcards. */
  lemma LowerNoWildcards(k: string)
    requires NoWildcards(k)
    ensures NoWildcards(Lower(k))
  {
  }

  /**
    For a keyword without `%` or `_`, a row is returned exactly when its chosen
    column is set and, lowered, contains the lowered keyword.
  */
  lemma SearchIsSubstring(s: Store, keyword: string, column: Column, l: Link)
    requires QuoteFree(keyword) && NoWildcards(keyword) && keyword != []
    ensures l in Search(s, keyword, column).rows <==>
      l in s && ColumnValue(s[l], column).Some? && Contains(Lower(ColumnValue(s[l], column).value), Lower(keyword))
  {
    LowerAppend("%" + keyword, "%");
    LowerAppend("%", keyword);
    assert Lower("%") == "%";
    LowerNoWildcards(keyword);
    if l in s && ColumnValue(s[l], column).Some? {
      LikeIsContains(Lower(ColumnValue(s[l], column).value), Lower(keyword));
    }
  }
}

=== FILE: wrappers.dfy ===
/** The optional value used for nullable columns and for oracle results that may fail. */
module Wrappers {

  /** `None` stands for SQL NULL, or for an operation that raised. */
  datatype Option<+T> = None | Some(value: T)
}
